=== FILE: README.md ===
# Task manager API — a Dafny model

This project models the request-handling core of a small Express service
that keeps "task" records (`id`, `title`, `description`, `completed`) in one
JSON file. The three parts it covers are:

- the **task controller** (`getAllTasks`, `getTaskById`, `createTask`,
  `updateTask`, `deleteTask`). Each one reads the whole collection, works on
  the loaded copy, and writes the whole collection back if it changed it;
- the **validation middleware** (`validateCreateTask`, `validateUpdateTask`,
  `validateTaskId`);
- the **error handler** (`errorHandler`, `notFoundHandler`).

Modules, one per concern:

| file | module | what it holds |
|---|---|---|
| wrappers.dfy | `Wrappers` | `Option`, `Result` |
| text.dfy | `Text` | ECMAScript whitespace, `String.prototype.trim`, `parseInt` without a radix |
| tasks.dfy | `Tasks` | `Task`, the id list, `Math.max`, the next id, `find`/`findIndex`, `splice`, the collection invariant |
| http.dfy | `Http` | error objects, JSON bodies, responses, what a handler does (`Reply`, `Next`, `Forward`), the catch-block wrapping |
| validation.dfy | `Validation` | body fields by JavaScript type, the three validators, the `Request` whose `id` parameter is rewritten |
| error_handling.dfy | `ErrorHandling` | `errorHandler`, `notFoundHandler` |
| task_controller.dfy | `TaskController` | the `TaskStore` class (the file), the five operations as methods |

The task file is a `TaskStore` object whose `tasks` field the write
replaces. For each request, the read and the write take a flag that says
whether that I/O step fails (`Io`). A failed read or write throws the
reader's or writer's one error. A failed write leaves the file as it was.
Each controller method states its result and the new file contents for
every path: read failure, unknown id, a field that is not a string, write
failure, and success. Each method also preserves the collection invariant
`ValidCollection`: ids are unique and positive, and titles and
descriptions are non-empty and already trimmed. That invariant is
preserved only for bodies the matching validator accepted.

Three behaviours of the code are worth knowing:

- Ids are `max(existing ids) + 1`. An id therefore comes back after the
  task that held the highest id is deleted (`Tasks.DeletedNewestIdIsReused`).
- `getTaskById` passes a read failure on unwrapped. That error has no
  status code and the name `Error`. The client therefore gets 500 with
  "Error reading tasks file", not the generic file message
  (`ErrorHandling.ControllerErrorAnswers`).
- The controllers do not assume validated bodies. When a text field is
  not a string, `.trim()` throws a TypeError, and the catch block wraps it
  like any other error. Lemmas show that bodies the validators accept never
  take that path.

## Model

| member | source | states |
|---|---|---|
| Text.TrimSpec | middleware/validation.js:9 | trim keeps the substring between leading and trailing whitespace. What it removes is whitespace, the result has none at either end, and it is empty exactly when the input is all whitespace |
| Text.Trim | middleware/validation.js:9 | `String.prototype.trim` never lengthens its input; Text.TrimSpec states what it keeps and removes |
| Text.TrimStart | middleware/validation.js:75 | parseInt first drops the leading whitespace; what remains is empty or starts with a non-space character |
| Text.TrimIdempotent | controllers/taskController.js:78-79 | trimming a stored, already trimmed text changes nothing |
| Text.ParseMagnitude | middleware/validation.js:75 | the unsigned part of parseInt is never negative, and is NaN when no digit starts it |
| Text.ParseIntDecimal | middleware/validation.js:75 | parseInt of whitespace, an optional sign, the shortest numeral of n and a non-digit tail gives n back, negated after '-' |
| Text.MagnitudeOfDigits | middleware/validation.js:75 | any run of decimal digits, leading zeros included, followed by a non-digit tail, has the run's value as magnitude |
| Text.ParseIntDigits | middleware/validation.js:75 | parseInt of whitespace, an optional sign, any run of decimal digits and a non-digit tail gives the run's value ("007" is 7), negated after '-' |
| Text.ParseIntNaN | middleware/validation.js:75-77 | without a decimal digit right after the whitespace and the optional sign, parseInt gives NaN ("abc", "x1", "- 1") |
| Text.ParseInt | middleware/validation.js:75 | parseInt yields a number only when a decimal digit follows the leading whitespace and the optional sign, and a negative one only after '-' |
| Text.ParseIntHexPrefix | middleware/validation.js:75 | a "0x" prefix selects hexadecimal: "0x10" parses as 16, so `/tasks/0x10` names task 16 |
| Text.ParseIntHexDigits | middleware/validation.js:75 | after whitespace, an optional sign and "0x" or "0X", a run of hexadecimal digits followed by a non-hex tail is read in base 16, negated after '-'; with no hex digit after the prefix ("0x", "0xg") parseInt gives NaN |
| Text.DecimalString | middleware/validation.js:75 | the decimal numeral of n has only digits, no leading zero, and is "0" for 0 |
| Text.DecimalStringValue | middleware/validation.js:75 | reading the digits of the numeral of n gives n back |
| Tasks.Ids | controllers/taskController.js:72 | `tasks.map(t => t.id)` has one id per task, in order |
| Tasks.Max | controllers/taskController.js:72 | `Math.max` of a non-empty list is an element of the list that no element exceeds |
| Tasks.NewId | controllers/taskController.js:70-74 | the new id exceeds every stored id, is 1 for an empty collection, and is otherwise one more than some stored id |
| Tasks.FindIndex | controllers/taskController.js:112 | findIndex gives the first position holding the id, and -1 exactly when no task has it |
| Tasks.Find | controllers/taskController.js:46 | `find` yields a stored task carrying the id, and undefined exactly when no task has it |
| Tasks.FindAgreesWithFindIndex | controllers/taskController.js:46 | `find` returns the task at the position findIndex reports, and undefined exactly when findIndex reports -1 |
| Tasks.FindIndexUnique | controllers/taskController.js:153 | when ids are unique, findIndex finds the only task with that id |
| Tasks.RemoveAt | controllers/taskController.js:163 | `splice(k, 1)` drops exactly position k: one shorter, earlier tasks in place, later tasks shifted down by one |
| Tasks.AppendNewKeepsUnique | controllers/taskController.js:70-83 | appending a task with the new id keeps ids unique |
| Tasks.ReplaceKeepsUnique | controllers/taskController.js:122-126 | overwriting a task's fields without its id keeps ids unique |
| Tasks.RemoveKeepsUnique | controllers/taskController.js:162-163 | removing a task keeps ids unique, and its id is no longer found |
| Tasks.DeletedNewestIdIsReused | controllers/taskController.js:70-74 | deleting the task just created and creating again hands out the same id |
| Http.FileError | controllers/taskController.js:33-36 | a FileError carries a (truthy) status code |
| Http.Wrap | controllers/taskController.js:90-101 | an error with a truthy statusCode passes through unchanged. Any other error becomes FileError 500 with the operation's message and keeps the original as its cause |
| Http.WrapIdempotent | controllers/taskController.js:134-145 | an error the catch block already wrapped is not wrapped again |
| Validation.Collected | middleware/validation.js:6-25 | the error list holds the message of every failed check and nothing else. It is empty exactly when no check failed, and has at most one entry per check |
| Validation.TruthyGuards | middleware/validation.js:9 | the title test (falsy, not a string, or empty once trimmed) fails exactly for a non-blank string; `Boolean(completed)` keeps a boolean and gives false for a missing or null field (Validation.Truthy) |
| Validation.CollectedAppend | middleware/validation.js:6-25 | the messages come out in the order the checks run |
| Validation.CreateReportsInOrder | middleware/validation.js:8-25 | create reports every failing field, not only the first, in the order title, description, completed |
| Validation.UpdateReportsInOrder | middleware/validation.js:44-60 | update reports each present field that fails, in the same order; absent fields report nothing |
| Validation.Verdict | middleware/validation.js:27-35 | an empty error list passes the request on; otherwise 400 with success:false, "Validation failed" and the list |
| Validation.ValidateCreateTask | middleware/validation.js:4-36 | the collected list is exactly the failing checks. The request goes on exactly when title and description are non-blank strings and completed is a boolean |
| Validation.ValidateUpdateTask | middleware/validation.js:39-71 | the collected list is exactly the failing checks. The request goes on exactly when every present field meets the create rule, so an empty body always passes |
| Validation.CreateStricterThanUpdate | middleware/validation.js:44-59 | every body create accepts is accepted by update |
| Validation.ValidateTaskId | middleware/validation.js:74-86 | a NaN or non-positive parse answers 400 "Invalid task ID. ID must be a positive integer" and leaves the request unchanged. Otherwise the raw id is replaced by the parsed integer, which is at least 1 |
| Validation.PositiveNumeralAccepted | middleware/validation.js:75-85 | the shortest numeral of a positive n ("42", " +7", "12abc", "5.9") is accepted as n; Validation.PositiveDigitsAccepted covers leading zeros |
| Validation.PositiveDigitsAccepted | middleware/validation.js:75-85 | any run of decimal digits with a positive value, leading zeros included, after whitespace and an optional '+', is accepted as that value |
| Validation.LeadingZerosAccepted | middleware/validation.js:75 | "007" parses as 7 |
| Validation.NonPositiveNumeralRefused | middleware/validation.js:77-82 | the shortest numeral of zero ("0", "+0", "-0") or of a negative number is refused |
| Validation.NonPositiveDigitsRefused | middleware/validation.js:75-82 | any digit run whose value is zero, or that follows '-', is refused, leading zeros included ("00", "+000", "-007") |
| Validation.NonNumericRefused | middleware/validation.js:77-82 | text with no decimal digit right after the whitespace and the optional sign ("abc", "-x", "+ 5") is refused |
| Validation.LetterIdRefused | middleware/validation.js:75-82 | the id "abc" is refused with 400 |
| Validation.SpaceAfterSignRefused | middleware/validation.js:75-82 | "- 1" is refused, since parseInt does not skip a space after the sign |
| ErrorHandling.ErrorHandler | middleware/errorHandler.js:3-32 | ValidationError maps to 400 and NotFoundError to 404, each with its own message. FileError maps to 500 with "Error accessing task file". Any other error gets its truthy statusCode (else 500) and its non-empty message (else "Internal server error"). The body always has success:false, and stack appears only in development |
| ErrorHandling.StatusComesFromClassOrError | middleware/errorHandler.js:5-18 | the status is 400, 404 or 500, or the error's own status code; it is never 0 |
| ErrorHandling.MessageNonEmpty | middleware/errorHandler.js:6-18 | the message is non-empty unless a validation or not-found error brought an empty one |
| ErrorHandling.WrappedErrorAnswer | middleware/errorHandler.js:15-17 | an error from the controller's catch block is answered as itself if it had a status code, else with 500 and the generic file message |
| ErrorHandling.ControllerErrorAnswers | controllers/taskController.js:49-58 | an unknown id answers 404 "Task not found". An unwrapped read failure from getTaskById answers 500 "Error reading tasks file" |
| ErrorHandling.NotFoundHandler | middleware/errorHandler.js:35-40 | an unmatched route answers 404 with success:false and "Route METHOD URL not found" |
| TaskController.TaskStore.Read | controllers/taskController.js:7-14 | reading returns the stored collection, or throws "Error reading tasks file" |
| TaskController.TaskStore.Write | controllers/taskController.js:17-24 | writing replaces the whole collection, or throws "Error writing tasks file" and changes nothing |
| TaskController.TrimField | controllers/taskController.js:78-79 | `.trim()` on a string gives its trim; on anything else it throws a TypeError |
| TaskController.Created | controllers/taskController.js:70-81 | the new task has the next id, the trimmed title and description, and `Boolean(completed)`; a non-string text field is a TypeError |
| TaskController.Patched | controllers/taskController.js:122-126 | update overwrites exactly the fields present in the body (text trimmed, completed coerced) and keeps the id and every absent field |
| TaskController.CreatedWellFormed | controllers/taskController.js:70-81 | a validated create body always yields a task with a positive id and clean text |
| TaskController.CreateKeepsValid | controllers/taskController.js:76-83 | appending that task keeps the collection invariant |
| TaskController.PatchedWellFormed | controllers/taskController.js:121-126 | a validated update body always applies and keeps a well-formed task well formed |
| TaskController.PatchIdempotent | controllers/taskController.js:121-126 | applying the same update twice gives the same task as once |
| TaskController.UpdateKeepsValid | controllers/taskController.js:112-128 | the updated collection keeps the invariant |
| TaskController.DeleteKeepsValid | controllers/taskController.js:162-164 | the collection after the removal keeps the invariant |
| TaskController.CreateKeeps | controllers/taskController.js:83-84 | a successful create keeps ids unique, and keeps the invariant for validated bodies |
| TaskController.UpdateKeeps | controllers/taskController.js:122-128 | a successful update keeps ids unique, and keeps the invariant for validated bodies |
| TaskController.DeleteKeeps | controllers/taskController.js:162-164 | a successful delete keeps ids unique and the invariant, and the deleted id is no longer found |
| TaskController.GetAllTasks | controllers/taskController.js:27-39 | 200 with the whole collection as an array; a read failure becomes FileError "Error retrieving tasks" |
| TaskController.GetTaskById | controllers/taskController.js:42-59 | 200 with the first task whose id matches; an unknown id is NotFoundError 404 "Task not found"; a read failure is passed on unwrapped |
| TaskController.CreateTask | controllers/taskController.js:62-102 | on success, exactly one new task is appended after the unchanged tasks, and the answer is 201 with that task. On any error the file is unchanged and the error is wrapped as "Error creating task". Unique ids are always kept; the invariant is kept for validated bodies |
| TaskController.UpdateTask | controllers/taskController.js:105-146 | on success, only the matched task changes, to its patched form, and the answer is 200 with it. An unknown id is NotFoundError before any write. The length is always unchanged. Other errors are wrapped as "Error updating task" and leave the file unchanged. Unique ids are always kept; the invariant is kept for validated bodies |
| TaskController.DeleteTask | controllers/taskController.js:149-183 | on success, exactly the matched task is removed, the others keep their order, and the answer is 200 with "Task deleted successfully" and the removed task; when ids were unique, its id is then not found. The invariant is kept. An unknown id is NotFoundError before any write. Other errors are wrapped as "Error deleting task" and leave the file unchanged |

## Left out

- File I/O and JSON (`fs.readFileSync`/`writeFileSync`, `JSON.parse`/`JSON.stringify`, pretty-printing). They are replaced by the `TaskStore` object plus one failure flag per read and per write. A file that parses but does not have the `{tasks: [...]}` shape is not modelled. A write that fails part-way is modelled as leaving the file unchanged.
- The read-modify-write race between concurrent requests (lost updates, two creates computing the same id). Each modelled request runs alone.
- Routing (`routes/taskRoutes.js`), `app.js`, the body parser and `app.listen`. This is framework wiring with no logic of its own. The order of the validators is reflected only in the controllers' documented inputs: `taskId` is the integer left by `ValidateTaskId`.
- `console.error` logging and reading `process.env`. `development` is a parameter, and so is the stack trace the runtime attaches to an error.
- Full JavaScript dynamic typing. A body field is one of `Absent`, `Null`, `Bool`, `Num`, `Str` or `Obj`, and numbers are integers. NaN and fractional field values, and objects that define their own `trim`, are not modelled.
- TaskController.TrimField: the TypeError's message is one fixed text. The real wording depends on the value and the JavaScript engine, and the error handler never shows it.
- Tasks.NewId: ids are unbounded integers. In the service they are JavaScript numbers, so once the largest id reaches 2^53, `max + 1` can equal an existing id; the uniqueness proved for create (TaskController.CreateTask, TaskController.CreateKeeps) carries over to the service only while ids stay below 2^53.
- Text.ParseInt: results are unbounded integers. Double precision, rounding of numerals longer than 15 digits, and `Infinity` are not modelled. The whitespace set is ECMAScript's WhiteSpace and LineTerminator, with the Zs category written out as of current Unicode.
- The original error kept on a FileError (`originalError`) is carried as `cause`. The handler never reads it, and no property about it is stated beyond `Http.Wrap`.

=== FILE: error_handling.dfy ===
/**
 * The terminal middleware: the error handler that turns a forwarded error
 * into a status code and a JSON body, and the handler for unmatched routes.
 */
module ErrorHandling {
  import opened Wrappers
  import opened Http

  const FileErrorMessage := "Error accessing task file"
  const DefaultMessage := "Internal server error"

  /** The classes the handler tells apart by err.name. */
  datatype Kind = ValidationKind | NotFoundKind | FileKind | OtherKind

  function KindOf(e: Error): Kind {
    if e.name == "ValidationError" then ValidationKind
    else if e.name == "NotFoundError" then NotFoundKind
    else if e.name == "FileError" then FileKind
    else OtherKind
  }

  /** errorHandler. stack is the trace the runtime attached to err, and
      development says whether NODE_ENV is "development". The status and
      message come from the error's class: 400 or 404 with the error's own
      message for validation and not-found errors, 500 with a generic
      message for file errors, and otherwise the error's own truthy status
      (else 500) and non-empty message (else a default). The body always
      says success:false and carries the stack only in development. */
  function ErrorHandler(err: Error, stack: string, development: bool): (r: Response)
    ensures r.body.ErrorBody? && !r.body.success && r.body.errors == None
    ensures r.body.stack == (if development then Some(stack) else None)
    ensures KindOf(err) == ValidationKind ==> r.status == 400 && r.body.message == err.message
    ensures KindOf(err) == NotFoundKind ==> r.status == 404 && r.body.message == err.message
    ensures KindOf(err) == FileKind ==> r.status == 500 && r.body.message == FileErrorMessage
    ensures KindOf(err) == OtherKind ==>
      (r.status == (if HasStatus(err) then err.statusCode.value else 500) &&
       r.body.message == (if err.message != "" then err.message else DefaultMessage))
  {
    var statusCode := if HasStatus(err) then err.statusCode.value else 500;
    var message := if err.message != "" then err.message else DefaultMessage;
    var (statusCode, message) :=
      if err.name == "ValidationError" then (400, err.message)
      else if err.name == "NotFoundError" then (404, err.message)
      else if err.name == "FileError" then (500, FileErrorMessage)
      else (statusCode, message);
    Response(statusCode, ErrorBody(false, message, None, if development then Some(stack) else None))
  }

  /** The status of an error response is one of the three the handler
      knows, or the status the error itself carries; it is never 0. */
  lemma StatusComesFromClassOrError(err: Error, stack: string, development: bool)
    ensures var s := ErrorHandler(err, stack, development).status;
      s != 0 && (s == 400 || s == 404 || s == 500 || (HasStatus(err) && s == err.statusCode.value))
  {
  }

  /** The message is empty only when a validation or not-found error
      arrived with an empty message of its own. */
  lemma MessageNonEmpty(err: Error, stack: string, development: bool)
    requires err.message != "" || KindOf(err) == FileKind || KindOf(err) == OtherKind
    ensures ErrorHandler(err, stack, development).body.message != ""
  {
  }

  /** What the client sees for an error that went through the controller's
      catch block: the error's own answer if it carried a status code, and
      500 with the generic file message if it was wrapped. */
  lemma WrappedErrorAnswer(e: Error, message: string, stack: string, development: bool)
    ensures ErrorHandler(Wrap(e, message), stack, development) ==
      if HasStatus(e) then ErrorHandler(e, stack, development)
      else Response(500, ErrorBody(false, FileErrorMessage, None, if development then Some(stack) else None))
  {
  }

  /** The answers to the errors the controller raises itself: an unknown id
      is a 404 "Task not found", and a read failure that getTaskById passes
      on unwrapped is a 500 carrying the reader's own message. */
  lemma ControllerErrorAnswers(stack: string, development: bool)
    ensures ErrorHandler(NotFound, stack, development).status == 404
    ensures ErrorHandler(NotFound, stack, development).body.message == "Task not found"
    ensures ErrorHandler(ReadFailure, stack, development).status == 500
    ensures ErrorHandler(ReadFailure, stack, development).body.message == "Error reading tasks file"
  {
  }

  /** notFoundHandler: any request no route matched gets a 404 naming its HTTP
      method (verb) and URL. */
  function NotFoundHandler(verb: string, originalUrl: string): (r: Response)
    ensures r.status == 404 && r.body.ErrorBody? && !r.body.success
    ensures r.body.message == "Route " + verb + " " + originalUrl + " not found"
    ensures r.body.errors == None && r.body.stack == None
  {
    Response(404, ErrorBody(false, "Route " + verb + " " + originalUrl + " not found", None, None))
  }
}

=== FILE: http.dfy ===
/**
 * The values that pass between the middleware, the controller and the
 * error handler: error objects, JSON response bodies, and what a handler
 * does with a request (answer it, pass it on, or pass on an error).
 */
module Http {
  import opened Wrappers
  import opened Tasks

  /** A thrown JavaScript Error: its name, its statusCode property when one
      was set, its message, and the error it wraps (originalError). */
  datatype Error = Error(name: string, statusCode: Option<int>, message: string, cause: Option<Error>)

  /** The JSON body of a response. An Envelope is {success, data} with an
      optional message key, held in note. */
  datatype Body =
    | TaskArray(tasks: seq<Task>)
    | TaskObject(task: Task)
    | Envelope(success: bool, note: Option<string>, data: Task)
    | ErrorBody(success: bool, message: string, errors: Option<seq<string>>, stack: Option<string>)

  datatype Response = Response(status: int, body: Body)

  /** What a middleware or controller does: answer with res.status().json(),
      call next(), or call next(error). */
  datatype Handled = Reply(response: Response) | Next | Forward(error: Error)

  /** JavaScript truthiness of err.statusCode: set and non-zero. */
  predicate HasStatus(e: Error) {
    e.statusCode.Some? && e.statusCode.value != 0
  }

  /** The error the file reader throws for any read or parse failure. */
  const ReadFailure := Error("Error", None, "Error reading tasks file", None)

  /** The error the file writer throws for any write failure. */
  const WriteFailure := Error("Error", None, "Error writing tasks file", None)

  /** The error the controller throws for an id no task has. */
  const NotFound := Error("NotFoundError", Some(404), "Task not found", None)

  /** The TypeError that calling trim() on a value that is not a string
      throws; its exact wording depends on the value and the engine. */
  const TrimTypeError := Error("TypeError", None, "trim is not a function", None)

  /** A FileError with status 500 wrapping cause. */
  function FileError(message: string, cause: Error): (e: Error)
    ensures HasStatus(e)
  {
    Error("FileError", Some(500), message, Some(cause))
  }

  /** The catch blocks of create, update and delete: an error that already
      carries a status code is passed on as it is, any other one becomes a
      FileError with the given message that keeps it as its cause. */
  function Wrap(e: Error, message: string): (r: Error)
    ensures HasStatus(r)
    ensures HasStatus(e) ==> r == e
    ensures !HasStatus(e) ==> r.name == "FileError" && r.statusCode == Some(500) &&
                              r.message == message && r.cause == Some(e)
  {
    if HasStatus(e) then e else FileError(message, e)
  }

  /** Wrapping twice is wrapping once. */
  lemma WrapIdempotent(e: Error, m1: string, m2: string)
    ensures Wrap(Wrap(e, m1), m2) == Wrap(e, m1)
  {
  }
}

=== FILE: task_controller.dfy ===
/**
 * The five controller operations. Each reads the whole collection from the
 * task file, works on the loaded copy, and the three that change it write
 * the whole collection back before answering. Errors are passed on to the
 * error handler with next(error).
 */
module TaskController {
  import opened Wrappers
  import opened Text
  import opened Tasks
  import opened Http
  import opened Validation

  const RetrieveFailed := "Error retrieving tasks"
  const CreateFailed := "Error creating task"
  const UpdateFailed := "Error updating task"
  const DeleteFailed := "Error deleting task"
  const Deleted := "Task deleted successfully"

  /** Whether this request's read and write of the task file fail. */
  datatype Io = Io(readFails: bool, writeFails: bool)

  /** The task file: the tasks array of its single JSON document. */
  class TaskStore {
    var tasks: seq<Task>

    constructor (initial: seq<Task>)
      ensures tasks == initial
    {
      tasks := initial;
    }

    /** readTasksFromFile: the stored collection, or the one error it throws
        for any failure to read or parse the file. */
    method Read(readFails: bool) returns (r: Result<seq<Task>, Error>)
      ensures r == if readFails then Err(ReadFailure) else Ok(tasks)
    {
      if readFails {
        return Err(ReadFailure);
      }
      return Ok(tasks);
    }

    /** writeTasksToFile: replaces the whole collection, or throws the one
        error it has for any failure, leaving the file as it was. */
    method Write(ts: seq<Task>, writeFails: bool) returns (r: Option<Error>)
      modifies this
      ensures writeFails ==> r == Some(WriteFailure) && tasks == old(tasks)
      ensures !writeFails ==> r == None && tasks == ts
    {
      if writeFails {
        return Some(WriteFailure);
      }
      tasks := ts;
      return None;
    }
  }

  /** f.trim(): the trimmed string, or a TypeError when f is not a string. */
  function TrimField(f: Field): (r: Result<string, Error>)
    ensures r.Ok? <==> f.Str?
    ensures r.Ok? ==> r.value == Trim(f.s)
    ensures r.Err? ==> r.error == TrimTypeError
  {
    if f.Str? then Ok(Trim(f.s)) else Err(TrimTypeError)
  }

  /** The task createTask builds from the body: the next id, trimmed text,
      and Boolean(completed); a TypeError when a text field is not a
      string. */
  function Created(tasks: seq<Task>, body: RequestBody): (r: Result<Task, Error>)
    ensures r.Ok? <==> body.title.Str? && body.description.Str?
    ensures r.Ok? ==>
      (r.value.id == NewId(tasks) && r.value.title == Trim(body.title.s) &&
       r.value.description == Trim(body.description.s) && r.value.completed == Truthy(body.completed))
    ensures r.Err? ==> r.error == TrimTypeError
  {
    match TrimField(body.title)
    case Err(e) => Err(e)
    case Ok(title) =>
      match TrimField(body.description)
      case Err(e) => Err(e)
      case Ok(description) => Ok(Task(NewId(tasks), title, description, Truthy(body.completed)))
  }

  /** The task updateTask leaves at the matched position: every field
      present in the body overwritten (text trimmed, completed coerced with
      Boolean), every absent field and the id kept. */
  function Patched(t: Task, body: RequestBody): (r: Result<Task, Error>)
    ensures r.Ok? <==>
      ((body.title == Absent || body.title.Str?) && (body.description == Absent || body.description.Str?))
    ensures r.Err? ==> r.error == TrimTypeError
    ensures r.Ok? ==> r.value.id == t.id
    ensures r.Ok? ==> r.value.title == if body.title == Absent then t.title else Trim(body.title.s)
    ensures r.Ok? ==> r.value.description ==
                      if body.description == Absent then t.description else Trim(body.description.s)
    ensures r.Ok? ==> r.value.completed ==
                      if body.completed == Absent then t.completed else Truthy(body.completed)
  {
    var title := if body.title == Absent then Ok(t.title) else TrimField(body.title);
    var description := if body.description == Absent then Ok(t.description) else TrimField(body.description);
    if title.Err? then Err(title.error)
    else if description.Err? then Err(description.error)
    else
      var completed := if body.completed == Absent then t.completed else Truthy(body.completed);
      Ok(Task(t.id, title.value, description.value, completed))
  }

  // ---------------------------------------------------------------------
  // Properties of the collection logic

  /** A body that passed validateCreateTask always yields a task, and it is
      well formed when the ids already stored are positive. */
  lemma CreatedWellFormed(tasks: seq<Task>, body: RequestBody)
    requires ValidCreate(body)
    requires forall i :: 0 <= i < |tasks| ==> tasks[i].id >= 1
    ensures Created(tasks, body).Ok?
    ensures WellFormed(Created(tasks, body).value)
  {
    TrimIdempotent(body.title.s);
    TrimIdempotent(body.description.s);
    if tasks != [] {
      assert tasks[0].id < NewId(tasks);
    }
  }

  /** Appending the created task keeps the collection invariant. */
  lemma CreateKeepsValid(tasks: seq<Task>, body: RequestBody)
    requires ValidCollection(tasks) && ValidCreate(body)
    ensures Created(tasks, body).Ok?
    ensures ValidCollection(tasks + [Created(tasks, body).value])
  {
    CreatedWellFormed(tasks, body);
    var t := Created(tasks, body).value;
    AppendNewKeepsUnique(tasks, t);
    var r := tasks + [t];
    forall i | 0 <= i < |r| ensures WellFormed(r[i]) {
      if i < |tasks| { assert r[i] == tasks[i]; }
    }
  }

  /** A body that passed validateUpdateTask always applies, and a well-formed
      task stays well formed. */
  lemma PatchedWellFormed(t: Task, body: RequestBody)
    requires ValidUpdate(body) && WellFormed(t)
    ensures Patched(t, body).Ok?
    ensures WellFormed(Patched(t, body).value)
  {
    if body.title != Absent { TrimIdempotent(body.title.s); }
    if body.description != Absent { TrimIdempotent(body.description.s); }
  }

  /** Applying the same update twice changes nothing more. */
  lemma PatchIdempotent(t: Task, body: RequestBody)
    requires Patched(t, body).Ok?
    ensures Patched(Patched(t, body).value, body) == Patched(t, body)
  {
    if body.title != Absent { TrimIdempotent(body.title.s); }
    if body.description != Absent { TrimIdempotent(body.description.s); }
  }

  /** Replacing the task at k by its update keeps the collection invariant. */
  lemma UpdateKeepsValid(tasks: seq<Task>, k: nat, body: RequestBody)
    requires ValidCollection(tasks) && ValidUpdate(body) && k < |tasks|
    ensures Patched(tasks[k], body).Ok?
    ensures ValidCollection(tasks[k := Patched(tasks[k], body).value])
  {
    PatchedWellFormed(tasks[k], body);
    ReplaceKeepsUnique(tasks, k, Patched(tasks[k], body).value);
  }

  /** Removing the task at k keeps the collection invariant. */
  lemma DeleteKeepsValid(tasks: seq<Task>, k: nat)
    requires ValidCollection(tasks) && k < |tasks|
    ensures ValidCollection(RemoveAt(tasks, k))
  {
    RemoveKeepsUnique(tasks, k);
    var r := RemoveAt(tasks, k);
    forall i | 0 <= i < |r| ensures WellFormed(r[i]) {
      if i < k { assert r[i] == tasks[i]; } else { assert r[i] == tasks[i + 1]; }
    }
  }

  /** The invariants a successful create keeps, in the form the method uses. */
  lemma CreateKeeps(tasks: seq<Task>, body: RequestBody)
    requires Created(tasks, body).Ok?
    ensures UniqueIds(tasks) ==> UniqueIds(tasks + [Created(tasks, body).value])
    ensures ValidCollection(tasks) && ValidCreate(body) ==>
      ValidCollection(tasks + [Created(tasks, body).value])
  {
    if UniqueIds(tasks) { AppendNewKeepsUnique(tasks, Created(tasks, body).value); }
    if ValidCollection(tasks) && ValidCreate(body) { CreateKeepsValid(tasks, body); }
  }

  /** The invariants a successful update keeps, in the form the method uses. */
  lemma UpdateKeeps(tasks: seq<Task>, k: nat, body: RequestBody)
    requires k < |tasks| && Patched(tasks[k], body).Ok?
    ensures UniqueIds(tasks) ==> UniqueIds(tasks[k := Patched(tasks[k], body).value])
    ensures ValidCollection(tasks) && ValidUpdate(body) ==>
      ValidCollection(tasks[k := Patched(tasks[k], body).value])
  {
    if UniqueIds(tasks) { ReplaceKeepsUnique(tasks, k, Patched(tasks[k], body).value); }
    if ValidCollection(tasks) && ValidUpdate(body) { UpdateKeepsValid(tasks, k, body); }
  }

  /** The invariants a successful delete keeps, in the form the method uses. */
  lemma DeleteKeeps(tasks: seq<Task>, k: nat)
    requires k < |tasks|
    ensures UniqueIds(tasks) ==>
      UniqueIds(RemoveAt(tasks, k)) && FindIndex(RemoveAt(tasks, k), tasks[k].id) == -1
    ensures ValidCollection(tasks) ==> ValidCollection(RemoveAt(tasks, k))
  {
    if UniqueIds(tasks) { RemoveKeepsUnique(tasks, k); }
    if ValidCollection(tasks) { DeleteKeepsValid(tasks, k); }
  }

  // ---------------------------------------------------------------------
  // The controller operations

  /** getAllTasks: the whole collection as a bare array; any read failure
      becomes a FileError "Error retrieving tasks". */
  method GetAllTasks(store: TaskStore, readFails: bool) returns (h: Handled)
    ensures readFails ==> h == Forward(FileError(RetrieveFailed, ReadFailure))
    ensures !readFails ==> h == Reply(Response(200, TaskArray(store.tasks)))
  {
    var loaded := store.Read(readFails);
    if loaded.Err? {
      return Forward(FileError(RetrieveFailed, loaded.error));
    }
    return Reply(Response(200, TaskArray(loaded.value)));
  }

  /** getTaskById: the first task with the id, or a NotFoundError. A read
      failure is passed on as it is, without a status code. */
  method GetTaskById(store: TaskStore, taskId: int, readFails: bool) returns (h: Handled)
    ensures readFails ==> h == Forward(ReadFailure)
    ensures !readFails && FindIndex(store.tasks, taskId) == -1 ==> h == Forward(NotFound)
    ensures !readFails && FindIndex(store.tasks, taskId) >= 0 ==>
      h == Reply(Response(200, TaskObject(store.tasks[FindIndex(store.tasks, taskId)])))
    ensures h.Reply? ==> h.response.body.TaskObject? && h.response.body.task.id == taskId
  {
    var loaded := store.Read(readFails);
    if loaded.Err? {
      return Forward(loaded.error);
    }
    var task := Find(loaded.value, taskId);
    FindAgreesWithFindIndex(loaded.value, taskId);
    if task.None? {
      return Forward(NotFound);
    }
    return Reply(Response(200, TaskObject(task.value)));
  }

  /** createTask: appends a task with the next id and the trimmed fields,
      writes the collection, and answers 201 with the new task. Errors
      without a status code become a FileError "Error creating task"; on
      any error the file is left as it was. */
  method CreateTask(store: TaskStore, body: RequestBody, io: Io) returns (h: Handled)
    modifies store
    ensures io.readFails ==>
      h == Forward(FileError(CreateFailed, ReadFailure)) && store.tasks == old(store.tasks)
    ensures !io.readFails && Created(old(store.tasks), body).Err? ==>
      h == Forward(FileError(CreateFailed, TrimTypeError)) && store.tasks == old(store.tasks)
    ensures !io.readFails && Created(old(store.tasks), body).Ok? && io.writeFails ==>
      h == Forward(FileError(CreateFailed, WriteFailure)) && store.tasks == old(store.tasks)
    ensures !io.readFails && Created(old(store.tasks), body).Ok? && !io.writeFails ==>
      var t := Created(old(store.tasks), body).value;
      store.tasks == old(store.tasks) + [t] && h == Reply(Response(201, Envelope(true, None, t)))
    ensures old(UniqueIds(store.tasks)) ==> UniqueIds(store.tasks)
    ensures old(ValidCollection(store.tasks)) && ValidCreate(body) ==> ValidCollection(store.tasks)
  {
    var loaded := store.Read(io.readFails);
    if loaded.Err? {
      return Forward(Wrap(loaded.error, CreateFailed));
    }
    var tasks := loaded.value;
    var maxId := if |tasks| > 0 then Max(Ids(tasks)) else 0;
    var newId := maxId + 1;
    var title := TrimField(body.title);
    if title.Err? {
      return Forward(Wrap(title.error, CreateFailed));
    }
    var description := TrimField(body.description);
    if description.Err? {
      return Forward(Wrap(description.error, CreateFailed));
    }
    var newTask := Task(newId, title.value, description.value, Truthy(body.completed));
    tasks := tasks + [newTask];
    var failed := store.Write(tasks, io.writeFails);
    if failed.Some? {
      return Forward(Wrap(failed.value, CreateFailed));
    }
    CreateKeeps(old(store.tasks), body);
    return Reply(Response(201, Envelope(true, None, newTask)));
  }

  /** updateTask: overwrites the fields present in the body on the first
      task with the id, writes the collection, and answers 200 with the
      updated task. An unknown id is a NotFoundError raised before anything
      is written; other errors without a status code become a FileError
      "Error updating task"; on any error the file is left as it was. */
  method UpdateTask(store: TaskStore, taskId: int, body: RequestBody, io: Io) returns (h: Handled)
    modifies store
    ensures io.readFails ==>
      h == Forward(FileError(UpdateFailed, ReadFailure)) && store.tasks == old(store.tasks)
    ensures !io.readFails && FindIndex(old(store.tasks), taskId) == -1 ==>
      h == Forward(NotFound) && store.tasks == old(store.tasks)
    ensures !io.readFails && FindIndex(old(store.tasks), taskId) >= 0 ==>
      var k := FindIndex(old(store.tasks), taskId);
      var patched := Patched(old(store.tasks)[k], body);
      (patched.Err? ==>
        h == Forward(FileError(UpdateFailed, TrimTypeError)) && store.tasks == old(store.tasks)) &&
      (patched.Ok? && io.writeFails ==>
        h == Forward(FileError(UpdateFailed, WriteFailure)) && store.tasks == old(store.tasks)) &&
      (patched.Ok? && !io.writeFails ==>
        store.tasks == old(store.tasks)[k := patched.value] &&
        h == Reply(Response(200, Envelope(true, None, patched.value))))
    ensures |store.tasks| == |old(store.tasks)|
    ensures old(UniqueIds(store.tasks)) ==> UniqueIds(store.tasks)
    ensures old(ValidCollection(store.tasks)) && ValidUpdate(body) ==> ValidCollection(store.tasks)
  {
    var loaded := store.Read(io.readFails);
    if loaded.Err? {
      return Forward(Wrap(loaded.error, UpdateFailed));
    }
    var tasks := loaded.value;
    var taskIndex := FindIndex(tasks, taskId);
    if taskIndex == -1 {
      return Forward(Wrap(NotFound, UpdateFailed));
    }
    // tasks[taskIndex] is one object: its fields are overwritten in place.
    var task := tasks[taskIndex];
    if body.title != Absent {
      var title := TrimField(body.title);
      if title.Err? {
        return Forward(Wrap(title.error, UpdateFailed));
      }
      task := task.(title := title.value);
    }
    if body.description != Absent {
      var description := TrimField(body.description);
      if description.Err? {
        return Forward(Wrap(description.error, UpdateFailed));
      }
      task := task.(description := description.value);
    }
    if body.completed != Absent {
      task := task.(completed := Truthy(body.completed));
    }
    assert task == Patched(tasks[taskIndex], body).value;
    tasks := tasks[taskIndex := task];
    var failed := store.Write(tasks, io.writeFails);
    if failed.Some? {
      return Forward(Wrap(failed.value, UpdateFailed));
    }
    UpdateKeeps(old(store.tasks), taskIndex, body);
    return Reply(Response(200, Envelope(true, None, tasks[taskIndex])));
  }

  /** deleteTask: removes the first task with the id, keeping the order of
      the others, writes the collection, and answers 200 with the removed
      task. An unknown id is a NotFoundError raised before anything is
      written; other errors without a status code become a FileError
      "Error deleting task"; on any error the file is left as it was. */
  method DeleteTask(store: TaskStore, taskId: int, io: Io) returns (h: Handled)
    modifies store
    ensures io.readFails ==>
      h == Forward(FileError(DeleteFailed, ReadFailure)) && store.tasks == old(store.tasks)
    ensures !io.readFails && FindIndex(old(store.tasks), taskId) == -1 ==>
      h == Forward(NotFound) && store.tasks == old(store.tasks)
    ensures !io.readFails && FindIndex(old(store.tasks), taskId) >= 0 && io.writeFails ==>
      h == Forward(FileError(DeleteFailed, WriteFailure)) && store.tasks == old(store.tasks)
    ensures !io.readFails && FindIndex(old(store.tasks), taskId) >= 0 && !io.writeFails ==>
      var k := FindIndex(old(store.tasks), taskId);
      store.tasks == RemoveAt(old(store.tasks), k) &&
      h == Reply(Response(200, Envelope(true, Some(Deleted), old(store.tasks)[k])))
    ensures old(ValidCollection(store.tasks)) ==> ValidCollection(store.tasks)
    ensures old(UniqueIds(store.tasks)) && h.Reply? ==> FindIndex(store.tasks, taskId) == -1
  {
    var loaded := store.Read(io.readFails);
    if loaded.Err? {
      return Forward(Wrap(loaded.error, DeleteFailed));
    }
    var tasks := loaded.value;
    var taskIndex := FindIndex(tasks, taskId);
    if taskIndex == -1 {
      return Forward(Wrap(NotFound, DeleteFailed));
    }
    var deletedTask := tasks[taskIndex];
    tasks := tasks[..taskIndex] + tasks[taskIndex + 1..];
    var failed := store.Write(tasks, io.writeFails);
    if failed.Some? {
      return Forward(Wrap(failed.value, DeleteFailed));
    }
    DeleteKeeps(old(store.tasks), taskIndex);
    return Reply(Response(200, Envelope(true, Some(Deleted), deletedTask)));
  }
}

=== FILE: tasks.dfy ===
/**
 * The task record and the pure collection logic of the controller: the ids
 * of a collection, the next id (largest id plus one), and the two searches
 * Array.prototype.find and Array.prototype.findIndex by id.
 */
module Tasks {
  import opened Wrappers
  import opened Text

  datatype Task = Task(id: int, title: string, description: string, completed: bool)

  /** tasks.map(t => t.id) */
  function Ids(tasks: seq<Task>): (ids: seq<int>)
    ensures |ids| == |tasks|
    ensures forall i :: 0 <= i < |tasks| ==> ids[i] == tasks[i].id
  {
    if tasks == [] then [] else [tasks[0].id] + Ids(tasks[1..])
  }

  /** Math.max over a non-empty list: an element of the list that no
      element exceeds. */
  function Max(xs: seq<int>): (m: int)
    requires xs != []
    ensures forall i :: 0 <= i < |xs| ==> xs[i] <= m
    ensures exists i :: 0 <= i < |xs| && xs[i] == m
  {
    if |xs| == 1 then xs[0]
    else
      var rest := Max(xs[1..]);
      assert forall i :: 1 <= i < |xs| ==> xs[i] == xs[1..][i - 1];
      if xs[0] >= rest then xs[0] else rest
  }

  /** The largest id of the collection, or 0 when it is empty. */
  function MaxId(tasks: seq<Task>): int
  {
    if |tasks| > 0 then Max(Ids(tasks)) else 0
  }

  /** The id a newly created task receives. */
  function NewId(tasks: seq<Task>): (id: int)
    ensures forall i :: 0 <= i < |tasks| ==> tasks[i].id < id
    ensures tasks == [] ==> id == 1
    ensures tasks != [] ==> exists i :: 0 <= i < |tasks| && tasks[i].id == id - 1
  {
    var m := MaxId(tasks);
    assert tasks != [] ==> forall i :: 0 <= i < |tasks| ==> tasks[i].id == Ids(tasks)[i];
    m + 1
  }

  /** No two tasks of the collection share an id. */
  predicate UniqueIds(tasks: seq<Task>) {
    forall i, j :: 0 <= i < j < |tasks| ==> tasks[i].id != tasks[j].id
  }

  /** A text field as stored: non-empty and already trimmed. */
  predicate Clean(s: string) {
    s != [] && Trim(s) == s
  }

  /** What the service keeps true of every stored task. */
  predicate WellFormed(t: Task) {
    t.id >= 1 && Clean(t.title) && Clean(t.description)
  }

  /** The collection invariant: unique positive ids, clean text fields. */
  predicate ValidCollection(tasks: seq<Task>) {
    UniqueIds(tasks) && forall i :: 0 <= i < |tasks| ==> WellFormed(tasks[i])
  }

  /** tasks.findIndex(t => t.id === id): the first position holding id,
      or -1 when there is none. */
  function FindIndex(tasks: seq<Task>, id: int): (k: int)
    ensures -1 <= k < |tasks|
    ensures k == -1 <==> forall i :: 0 <= i < |tasks| ==> tasks[i].id != id
    ensures k >= 0 ==> tasks[k].id == id && forall i :: 0 <= i < k ==> tasks[i].id != id
  {
    if tasks == [] then -1
    else if tasks[0].id == id then 0
    else
      var k := FindIndex(tasks[1..], id);
      assert forall i :: 1 <= i < |tasks| ==> tasks[i] == tasks[1..][i - 1];
      if k == -1 then -1 else k + 1
  }

  /** tasks.find(t => t.id === id), with undefined as None. */
  function Find(tasks: seq<Task>, id: int): (r: Option<Task>)
    ensures r.Some? ==> r.value in tasks && r.value.id == id
    ensures r.None? <==> forall i :: 0 <= i < |tasks| ==> tasks[i].id != id
  {
    if tasks == [] then None
    else if tasks[0].id == id then Some(tasks[0])
    else Find(tasks[1..], id)
  }

  /** find and findIndex agree: find yields the task at the index findIndex
      reports, and nothing exactly when findIndex reports -1. */
  lemma {:induction false} FindAgreesWithFindIndex(tasks: seq<Task>, id: int)
    ensures var k := FindIndex(tasks, id);
      Find(tasks, id) == if k == -1 then None else Some(tasks[k])
  {
    if tasks != [] && tasks[0].id != id {
      FindAgreesWithFindIndex(tasks[1..], id);
    }
  }

  /** With unique ids, the task findIndex reports is the only one with that id. */
  lemma FindIndexUnique(tasks: seq<Task>, id: int, j: int)
    requires UniqueIds(tasks)
    requires 0 <= j < |tasks| && tasks[j].id == id
    ensures FindIndex(tasks, id) == j
  {
  }

  /** tasks.splice(k, 1) */
  function RemoveAt(tasks: seq<Task>, k: nat): (r: seq<Task>)
    requires k < |tasks|
    ensures |r| == |tasks| - 1
    ensures forall i :: 0 <= i < k ==> r[i] == tasks[i]
    ensures forall i :: k <= i < |r| ==> r[i] == tasks[i + 1]
  {
    tasks[..k] + tasks[k + 1..]
  }

  /** Appending a task with the next id keeps ids unique. */
  lemma AppendNewKeepsUnique(tasks: seq<Task>, t: Task)
    requires UniqueIds(tasks)
    requires t.id == NewId(tasks)
    ensures UniqueIds(tasks + [t])
  {
    var r := tasks + [t];
    forall i, j | 0 <= i < j < |r| ensures r[i].id != r[j].id {
      if j == |tasks| { assert r[i] == tasks[i]; }
      else { assert r[i] == tasks[i] && r[j] == tasks[j]; }
    }
  }

  /** Replacing a task by one with the same id keeps ids unique. */
  lemma ReplaceKeepsUnique(tasks: seq<Task>, k: nat, t: Task)
    requires UniqueIds(tasks)
    requires k < |tasks| && t.id == tasks[k].id
    ensures UniqueIds(tasks[k := t])
  {
  }

  /** Removing a task keeps ids unique, and the removed id is gone when ids
      were unique: a later lookup of it finds nothing. */
  lemma RemoveKeepsUnique(tasks: seq<Task>, k: nat)
    requires UniqueIds(tasks)
    requires k < |tasks|
    ensures UniqueIds(RemoveAt(tasks, k))
    ensures FindIndex(RemoveAt(tasks, k), tasks[k].id) == -1
  {
    var r := RemoveAt(tasks, k);
    forall i, j | 0 <= i < j < |r| ensures r[i].id != r[j].id {
      var i' := if i < k then i else i + 1;
      var j' := if j < k then j else j + 1;
      assert r[i] == tasks[i'] && r[j] == tasks[j'];
    }
    forall i | 0 <= i < |r| ensures r[i].id != tasks[k].id {
      var i' := if i < k then i else i + 1;
      assert r[i] == tasks[i'];
    }
  }

  /** Ids are reused: when the task just created is deleted again, the next
      create hands out the same id. */
  lemma DeletedNewestIdIsReused(tasks: seq<Task>, t: Task)
    requires t.id == NewId(tasks)
    ensures RemoveAt(tasks + [t], |tasks|) == tasks
    ensures NewId(RemoveAt(tasks + [t], |tasks|)) == t.id
  {
    assert RemoveAt(tasks + [t], |tasks|) == tasks;
  }
}

=== FILE: text.dfy ===
/**
 * JavaScript string helpers the service relies on: the whitespace set of
 * ECMAScript, String.prototype.trim, and the global parseInt called with
 * one argument (no radix).
 */
module Text {

  /** ECMAScript WhiteSpace and LineTerminator code points: the characters
      that trim removes and that parseInt skips before a number. */
  predicate IsSpace(c: char) {
    var k := c as int;
    k == 0x09 || k == 0x0A || k == 0x0B || k == 0x0C || k == 0x0D || k == 0x20 ||
    k == 0xA0 || k == 0x1680 || (0x2000 <= k <= 0x200A) || k == 0x2028 || k == 0x2029 ||
    k == 0x202F || k == 0x205F || k == 0x3000 || k == 0xFEFF
  }

  predicate AllSpace(s: string) {
    forall i :: 0 <= i < |s| ==> IsSpace(s[i])
  }

  /** Number of whitespace characters at the start of s. */
  function LeadingSpace(s: string): (n: nat)
    ensures n <= |s|
    ensures forall i :: 0 <= i < n ==> IsSpace(s[i])
    ensures n == |s| || !IsSpace(s[n])
  {
    if s != [] && IsSpace(s[0]) then 1 + LeadingSpace(s[1..]) else 0
  }

  /** Number of whitespace characters at the end of s. */
  function TrailingSpace(s: string): (n: nat)
    ensures n <= |s|
    ensures forall i :: |s| - n <= i < |s| ==> IsSpace(s[i])
    ensures n == |s| || !IsSpace(s[|s| - 1 - n])
  {
    if s != [] && IsSpace(s[|s| - 1]) then 1 + TrailingSpace(s[..|s| - 1]) else 0
  }

  /** s with its leading whitespace removed. */
  function TrimStart(s: string): (r: string)
    ensures r == [] || !IsSpace(r[0])
  {
    s[LeadingSpace(s)..]
  }

  /** String.prototype.trim: s without its leading and trailing whitespace. */
  function Trim(s: string): (r: string)
    ensures |r| <= |s|
  {
    var a := LeadingSpace(s);
    var t := s[a..];
    t[..|t| - TrailingSpace(t)]
  }

  /** trim keeps the substring between the leading and the trailing
      whitespace: everything cut off is whitespace, the result has none at
      either end, and it is empty exactly when s is all whitespace. */
  lemma {:induction false} TrimSpec(s: string)
    ensures var a := LeadingSpace(s); var r := Trim(s);
      a + |r| <= |s| && r == s[a..a + |r|] &&
      (forall i :: 0 <= i < a ==> IsSpace(s[i])) &&
      (forall i :: a + |r| <= i < |s| ==> IsSpace(s[i]))
    ensures Trim(s) == [] || (!IsSpace(Trim(s)[0]) && !IsSpace(Trim(s)[|Trim(s)| - 1]))
    ensures Trim(s) == [] <==> AllSpace(s)
  {
    TrimCutsSpace(s);
    TrimCleanEnds(s);
    TrimEmptyExactlyWhenBlank(s);
  }

  lemma {:induction false} TrimCutsSpace(s: string)
    ensures var a := LeadingSpace(s); var r := Trim(s);
      a + |r| <= |s| && r == s[a..a + |r|] &&
      (forall i :: a + |r| <= i < |s| ==> IsSpace(s[i]))
  {
    var a := LeadingSpace(s);
    var t := s[a..];
    var r := Trim(s);
    assert r == t[..|t| - TrailingSpace(t)];
    forall i | a + |r| <= i < |s| ensures IsSpace(s[i]) {
      assert s[i] == t[i - a];
    }
  }

  lemma {:induction false} TrimCleanEnds(s: string)
    ensures Trim(s) == [] || (!IsSpace(Trim(s)[0]) && !IsSpace(Trim(s)[|Trim(s)| - 1]))
  {
    var a := LeadingSpace(s);
    var t := s[a..];
    var b := TrailingSpace(t);
    var r := Trim(s);
    if r != [] {
      assert r[0] == s[a];
      assert r[|r| - 1] == t[|t| - 1 - b];
    }
  }

  lemma {:induction false} TrimEmptyExactlyWhenBlank(s: string)
    ensures Trim(s) == [] <==> AllSpace(s)
  {
    var a := LeadingSpace(s);
    var t := s[a..];
    if a < |s| {
      assert t[0] == s[a];
    }
  }

  /** A string with no whitespace at either end is left alone by trim. */
  lemma TrimOfClean(s: string)
    requires s == [] || (!IsSpace(s[0]) && !IsSpace(s[|s| - 1]))
    ensures Trim(s) == s
  {
    if s != [] {
      assert LeadingSpace(s) == 0;
      assert TrailingSpace(s) == 0;
    }
  }

  /** trim is idempotent. */
  lemma TrimIdempotent(s: string)
    ensures Trim(Trim(s)) == Trim(s)
  {
    TrimSpec(s);
    TrimOfClean(Trim(s));
  }

  /** Leading whitespace is skipped by TrimStart. */
  lemma TrimStartSkips(ws: string, s: string)
    requires AllSpace(ws)
    requires s == [] || !IsSpace(s[0])
    ensures TrimStart(ws + s) == s
  {
    LeadingSpaceOf(ws, s);
    assert (ws + s)[|ws|..] == s;
  }

  lemma {:induction false} LeadingSpaceOf(ws: string, s: string)
    requires AllSpace(ws)
    requires s == [] || !IsSpace(s[0])
    ensures LeadingSpace(ws + s) == |ws|
  {
    if ws == [] {
      assert ws + s == s;
    } else {
      assert (ws + s)[1..] == ws[1..] + s;
      LeadingSpaceOf(ws[1..], s);
    }
  }

  // ---------------------------------------------------------------------
  // parseInt(string) with no radix argument

  /** The number parseInt produces, with NaN kept apart. JavaScript yields
      -0 for "-0"; as an integer that is 0. */
  datatype ParsedInt = NaN | Int(value: int)

  predicate IsDecimalDigit(c: char) {
    '0' <= c <= '9'
  }

  predicate IsHexDigit(c: char) {
    IsDecimalDigit(c) || 'a' <= c <= 'f' || 'A' <= c <= 'F'
  }

  predicate IsDigitIn(c: char, radix: nat) {
    if radix == 16 then IsHexDigit(c) else IsDecimalDigit(c)
  }

  function DigitValue(c: char): (v: nat)
    requires IsHexDigit(c)
    ensures v < 16
    ensures IsDecimalDigit(c) ==> v < 10
  {
    if IsDecimalDigit(c) then c as int - '0' as int
    else if 'a' <= c <= 'f' then c as int - 'a' as int + 10
    else c as int - 'A' as int + 10
  }

  /** Length of the run of radix digits at the start of s. */
  function DigitRun(s: string, radix: nat): (n: nat)
    ensures n <= |s|
    ensures forall i :: 0 <= i < n ==> IsDigitIn(s[i], radix)
    ensures n == |s| || !IsDigitIn(s[n], radix)
  {
    if s != [] && IsDigitIn(s[0], radix) then 1 + DigitRun(s[1..], radix) else 0
  }

  /** The value of a string of digits, most significant digit first. */
  function DigitsValue(d: string, radix: nat): nat
    requires radix == 10 || radix == 16
    requires forall i :: 0 <= i < |d| ==> IsDigitIn(d[i], radix)
  {
    if d == [] then 0
    else
      var c := d[|d| - 1];
      assert IsDigitIn(c, radix);
      DigitsValue(d[..|d| - 1], radix) * radix + DigitValue(c)
  }

  /** The unsigned part of parseInt: a "0x"/"0X" prefix selects
      hexadecimal, then the longest run of digits is read; NaN when that
      run is empty. */
  function ParseMagnitude(u: string): (r: ParsedInt)
    ensures r.Int? ==> r.value >= 0
    ensures (u == [] || !IsDecimalDigit(u[0])) ==> r == NaN
  {
    var hex := |u| >= 2 && u[0] == '0' && (u[1] == 'x' || u[1] == 'X');
    var radix := if hex then 16 else 10;
    var v := if hex then u[2..] else u;
    var n := DigitRun(v, radix);
    if n == 0 then NaN else Int(DigitsValue(v[..n], radix))
  }

  /** parseInt(s): skip leading whitespace, read an optional sign, then the
      magnitude, negated after '-'. */
  function ParseInt(s: string): (r: ParsedInt)
    ensures r.Int? ==> var t := TrimStart(s);
      t != [] && (IsDecimalDigit(t[0]) ||
                  ((t[0] == '+' || t[0] == '-') && |t| >= 2 && IsDecimalDigit(t[1])))
    ensures r.Int? && r.value < 0 ==> TrimStart(s)[0] == '-'
  {
    var t := TrimStart(s);
    if t != [] && (t[0] == '+' || t[0] == '-') then
      match ParseMagnitude(t[1..])
      case NaN => NaN
      case Int(m) => Int(if t[0] == '-' then -m else m)
    else ParseMagnitude(t)
  }

  /** The decimal numeral of n, without leading zeros. */
  function DecimalString(n: nat): (s: string)
    ensures s != []
    ensures forall i :: 0 <= i < |s| ==> IsDecimalDigit(s[i])
    ensures n > 0 ==> s[0] != '0'
    ensures n == 0 ==> s == "0"
  {
    if n < 10 then ['0' + n as char]
    else DecimalString(n / 10) + ['0' + (n % 10) as char]
  }

  lemma {:induction false} DecimalStringValue(n: nat)
    ensures DigitsValue(DecimalString(n), 10) == n
  {
    var s := DecimalString(n);
    if n >= 10 {
      DecimalStringValue(n / 10);
      assert s[..|s| - 1] == DecimalString(n / 10);
    }
  }

  lemma {:induction false} DigitRunOfNumeral(d: string, rest: string)
    requires forall i :: 0 <= i < |d| ==> IsDecimalDigit(d[i])
    requires rest == [] || !IsDecimalDigit(rest[0])
    ensures DigitRun(d + rest, 10) == |d|
  {
    if d != [] {
      assert (d + rest)[0] == d[0];
      assert IsDigitIn(d[0], 10);
      assert (d + rest)[1..] == d[1..] + rest;
      DigitRunOfNumeral(d[1..], rest);
    } else {
      assert d + rest == rest;
      assert rest == [] || !IsDigitIn(rest[0], 10);
    }
  }

  /** A decimal numeral followed by anything that does not continue it
      ("12abc", "7.5", "3e2") has the numeral's value as its magnitude. */
  lemma MagnitudeOfDecimal(n: nat, rest: string)
    requires rest == [] || !IsDecimalDigit(rest[0])
    requires n == 0 ==> rest == [] || (rest[0] != 'x' && rest[0] != 'X')
    ensures ParseMagnitude(DecimalString(n) + rest) == Int(n)
  {
    var d := DecimalString(n);
    var u := d + rest;
    if |u| >= 2 && u[0] == '0' {
      assert n == 0 && d == "0" && u[1] == rest[0];
    }
    DigitRunOfNumeral(d, rest);
    assert u[..|d|] == d;
    DecimalStringValue(n);
  }

  /** Any run of decimal digits, leading zeros included, followed by text
      that does not continue it, has the run's value as its magnitude
      ("007" is 7). */
  lemma {:induction false} MagnitudeOfDigits(d: string, rest: string)
    requires d != []
    requires forall i :: 0 <= i < |d| ==> IsDecimalDigit(d[i])
    requires rest == [] || !IsDecimalDigit(rest[0])
    requires d == "0" ==> rest == [] || (rest[0] != 'x' && rest[0] != 'X')
    ensures ParseMagnitude(d + rest) == Int(DigitsValue(d, 10))
  {
    var u := d + rest;
    if |u| >= 2 && u[0] == '0' && |d| >= 2 {
      assert u[1] == d[1];
    }
    DigitRunOfNumeral(d, rest);
    assert u[..|d|] == d;
  }

  /** parseInt of whitespace, an optional sign, a run of decimal digits and
      a tail that does not continue it is the run's value, negated after
      '-'. */
  lemma {:induction false} ParseIntDigits(ws: string, sign: string, d: string, rest: string)
    requires AllSpace(ws)
    requires sign == "" || sign == "+" || sign == "-"
    requires d != []
    requires forall i :: 0 <= i < |d| ==> IsDecimalDigit(d[i])
    requires rest == [] || !IsDecimalDigit(rest[0])
    requires d == "0" ==> rest == [] || (rest[0] != 'x' && rest[0] != 'X')
    ensures ParseInt(ws + sign + d + rest) ==
      Int(if sign == "-" then -(DigitsValue(d, 10) as int) else DigitsValue(d, 10))
  {
    var u := d + rest;
    Regroup(ws, sign, d, rest);
    MagnitudeOfDigits(d, rest);
    assert u[0] == d[0];
    ParseIntSigned(ws, sign, u, DigitsValue(d, 10));
  }

  lemma ParseIntSigned(ws: string, sign: string, u: string, v: nat)
    requires AllSpace(ws)
    requires sign == "" || sign == "+" || sign == "-"
    requires u != [] && IsDecimalDigit(u[0])
    requires ParseMagnitude(u) == Int(v)
    ensures ParseInt(ws + sign + u) == Int(if sign == "-" then -(v as int) else v)
  {
    ParseIntOf(ws, sign, u);
  }

  /** parseInt skips the whitespace, reads the sign, and negates the
      magnitude after '-'. */
  lemma ParseIntOf(ws: string, sign: string, u: string)
    requires AllSpace(ws)
    requires sign == "" || sign == "+" || sign == "-"
    requires sign == "" ==> u == [] || (!IsSpace(u[0]) && u[0] != '+' && u[0] != '-')
    ensures ParseInt(ws + sign + u) ==
      match ParseMagnitude(u)
      case NaN => NaN
      case Int(m) => Int(if sign == "-" then -m else m)
  {
    assert ws + sign + u == ws + (sign + u);
    ParseIntSkipsSpace(ws, sign + u);
    ParseIntSign(sign, u);
  }

  lemma ParseIntSkipsSpace(ws: string, x: string)
    requires AllSpace(ws)
    requires x == [] || !IsSpace(x[0])
    ensures ParseInt(ws + x) == ParseInt(x)
  {
    TrimStartSkips(ws, x);
    TrimStartSkips([], x);
    assert [] + x == x;
  }

  lemma ParseIntSign(sign: string, u: string)
    requires sign == "" || sign == "+" || sign == "-"
    requires sign == "" ==> u == [] || (!IsSpace(u[0]) && u[0] != '+' && u[0] != '-')
    ensures ParseInt(sign + u) ==
      match ParseMagnitude(u)
      case NaN => NaN
      case Int(m) => Int(if sign == "-" then -m else m)
  {
    var v := sign + u;
    TrimStartSkips([], v);
    assert [] + v == v;
    assert TrimStart(v) == v;
    if sign == "" {
      assert v == u;
      assert ParseInt(v) == ParseMagnitude(u);
    } else {
      assert v[0] == sign[0] && v[1..] == u;
      assert ParseInt(v) ==
        match ParseMagnitude(u)
        case NaN => NaN
        case Int(m) => Int(if v[0] == '-' then -m else m);
    }
  }

  /** parseInt reads a decimal numeral back: after optional whitespace and
      an optional sign, the numeral of n followed by anything that does not
      continue it parses to n, negated after '-'. */
  lemma ParseIntDecimal(ws: string, sign: string, n: nat, rest: string)
    requires AllSpace(ws)
    requires sign == "" || sign == "+" || sign == "-"
    requires rest == [] || !IsDecimalDigit(rest[0])
    requires n == 0 ==> rest == [] || (rest[0] != 'x' && rest[0] != 'X')
    ensures ParseInt(ws + sign + DecimalString(n) + rest) == Int(if sign == "-" then -(n as int) else n)
  {
    var u := DecimalString(n) + rest;
    Regroup(ws, sign, DecimalString(n), rest);
    assert ws + sign + DecimalString(n) + rest == ws + sign + u;
    MagnitudeOfDecimal(n, rest);
    ParseIntOf(ws, sign, u);
  }

  lemma Regroup(a: string, b: string, c: string, d: string)
    ensures a + b + c + d == a + b + (c + d)
  {
  }

  /** Without a digit after the optional whitespace and sign there is no
      number: parseInt gives NaN ("abc", "", "-x", "- 1"). */
  lemma ParseIntNaN(ws: string, sign: string, rest: string)
    requires AllSpace(ws)
    requires sign == "" || sign == "+" || sign == "-"
    requires rest == [] || (!IsDecimalDigit(rest[0]) &&
                            (sign == "" ==> !IsSpace(rest[0]) && rest[0] != '+' && rest[0] != '-'))
    ensures ParseInt(ws + sign + rest) == NaN
  {
    ParseIntOf(ws, sign, rest);
  }

  /** A "0x" or "0X" prefix makes parseInt read hexadecimal digits:
      "0x10" is 16. */
  lemma ParseIntHexPrefix()
    ensures ParseInt("0x10") == Int(16)
  {
    var a := "0x10";
    assert TrimStart(a) == a by { TrimStartSkips([], a); }
    assert !(a[0] == '+' || a[0] == '-');
    assert ParseInt(a) == ParseMagnitude(a);
    assert |a| >= 2 && a[0] == '0' && a[1] == 'x';
    assert a[2..] == "10";
    HexTen();
    assert "10"[..2] == "10";
    assert ParseMagnitude(a) == Int(DigitsValue("10", 16));
  }

  /** After "0x" or "0X", a run of hexadecimal digits followed by anything
      that does not continue it is read in base 16, negated after '-'. */
  lemma {:induction false} ParseIntHexDigits(ws: string, sign: string, x: char, d: string, rest: string)
    requires AllSpace(ws)
    requires sign == "" || sign == "+" || sign == "-"
    requires x == 'x' || x == 'X'
    requires forall i :: 0 <= i < |d| ==> IsHexDigit(d[i])
    requires rest == [] || !IsHexDigit(rest[0])
    ensures d != [] ==> (ParseInt(ws + sign + (['0', x] + d + rest)) ==
      Int(if sign == "-" then -(DigitsValue(d, 16) as int) else DigitsValue(d, 16)))
    ensures d == [] ==> ParseInt(ws + sign + (['0', x] + d + rest)) == NaN
  {
    var u := ['0', x] + d + rest;
    HexMagnitude(x, d, rest);
    assert u[0] == '0';
    ParseIntOf(ws, sign, u);
  }

  lemma {:induction false} HexMagnitude(x: char, d: string, rest: string)
    requires x == 'x' || x == 'X'
    requires forall i :: 0 <= i < |d| ==> IsHexDigit(d[i])
    requires rest == [] || !IsHexDigit(rest[0])
    ensures ParseMagnitude(['0', x] + d + rest) ==
      if d == [] then NaN else Int(DigitsValue(d, 16))
  {
    var u := ['0', x] + d + rest;
    assert u[2..] == d + rest;
    HexRun(d, rest);
    assert (d + rest)[..|d|] == d;
  }

  lemma {:induction false} HexRun(d: string, rest: string)
    requires forall i :: 0 <= i < |d| ==> IsHexDigit(d[i])
    requires rest == [] || !IsHexDigit(rest[0])
    ensures DigitRun(d + rest, 16) == |d|
  {
    if d != [] {
      assert (d + rest)[0] == d[0];
      assert (d + rest)[1..] == d[1..] + rest;
      HexRun(d[1..], rest);
    } else {
      assert d + rest == rest;
      assert rest == [] || !IsDigitIn(rest[0], 16);
    }
  }

  lemma HexTen()
    ensures DigitRun("10", 16) == 2
    ensures DigitsValue("10", 16) == 16
  {
    assert "10"[1..] == "0" && "0"[1..] == [];
    assert DigitRun("0", 16) == 1;
    assert "10"[..1] == "1" && "1"[..0] == [];
    assert DigitsValue("1", 16) == 1;
  }
}

=== FILE: validation.dfy ===
/**
 * The request validators that run before the controller: the body checks
 * for create and for update, and the check of the :id path parameter.
 */
module Validation {
  import opened Wrappers
  import opened Text
  import opened Http

  /** A field of a JSON request body, by JavaScript type. Obj stands for any
      object or array. Numbers are integers here. */
  datatype Field = Absent | Null | Bool(b: bool) | Num(n: int) | Str(s: string) | Obj

  /** req.body, reduced to the three fields the service reads. */
  datatype RequestBody = RequestBody(title: Field, description: Field, completed: Field)

  /** JavaScript truthiness, which is also what Boolean(f) returns. */
  predicate Truthy(f: Field) {
    match f
    case Absent => false
    case Null => false
    case Bool(b) => b
    case Num(n) => n != 0
    case Str(s) => s != ""
    case Obj => true
  }

  /** The JavaScript test `!f || typeof f !== "string" || f.trim().length === 0`
      fails exactly for a non-blank string; Boolean() keeps a boolean as it
      is and turns a missing or null field into false. */
  lemma TruthyGuards(f: Field)
    ensures (!Truthy(f) || !f.Str? || |Trim(f.s)| == 0) <==> !NonBlankString(f)
    ensures f.Bool? ==> Truthy(f) == f.b
    ensures f == Absent || f == Null ==> !Truthy(f)
  {
    if f.Str? && f.s == [] {
      assert |Trim(f.s)| == 0;
    }
  }

  /** A string that is not empty once trimmed. */
  predicate NonBlankString(f: Field) {
    f.Str? && Trim(f.s) != []
  }

  const TitleRequired := "Title is required and must be a non-empty string"
  const DescriptionRequired := "Description is required and must be a non-empty string"
  const CompletedRequired := "Completed is required and must be a boolean value"
  const TitleInvalid := "Title must be a non-empty string"
  const DescriptionInvalid := "Description must be a non-empty string"
  const CompletedInvalid := "Completed must be a boolean value"
  const ValidationFailed := "Validation failed"
  const InvalidId := "Invalid task ID. ID must be a positive integer"

  /** A body create accepts: both text fields non-blank strings, completed a boolean. */
  predicate ValidCreate(body: RequestBody) {
    NonBlankString(body.title) && NonBlankString(body.description) && body.completed.Bool?
  }

  /** A body update accepts: every present field meets the create rule. */
  predicate ValidUpdate(body: RequestBody) {
    (body.title == Absent || NonBlankString(body.title)) &&
    (body.description == Absent || NonBlankString(body.description)) &&
    (body.completed == Absent || body.completed.Bool?)
  }

  /** One check of a validator: whether it failed, and what it reports. */
  datatype Check = Check(failed: bool, message: string)

  /** The messages of the failed checks, in the order of the checks. */
  function Collected(checks: seq<Check>): (errors: seq<string>)
    ensures |errors| <= |checks|
    ensures errors == [] <==> forall i :: 0 <= i < |checks| ==> !checks[i].failed
    ensures forall i :: 0 <= i < |checks| && checks[i].failed ==> checks[i].message in errors
    ensures forall m :: m in errors ==>
      exists i :: 0 <= i < |checks| && checks[i].failed && checks[i].message == m
  {
    if checks == [] then []
    else
      var rest := Collected(checks[1..]);
      assert forall i :: 1 <= i < |checks| ==> checks[i] == checks[1..][i - 1];
      (if checks[0].failed then [checks[0].message] else []) + rest
  }

  /** Collecting over consecutive groups of checks concatenates their
      reports: the order of the checks is the order of the messages. */
  lemma {:induction false} CollectedAppend(a: seq<Check>, b: seq<Check>)
    ensures Collected(a + b) == Collected(a) + Collected(b)
  {
    if a != [] {
      assert (a + b)[1..] == a[1..] + b;
      CollectedAppend(a[1..], b);
    } else {
      assert a + b == b;
    }
  }

  lemma CollectedOne(c: Check)
    ensures Collected([c]) == if c.failed then [c.message] else []
  {
    assert [c][1..] == [];
  }

  function CreateChecks(body: RequestBody): seq<Check> {
    [Check(!NonBlankString(body.title), TitleRequired),
     Check(!NonBlankString(body.description), DescriptionRequired),
     Check(!body.completed.Bool?, CompletedRequired)]
  }

  function UpdateChecks(body: RequestBody): seq<Check> {
    [Check(body.title != Absent && !NonBlankString(body.title), TitleInvalid),
     Check(body.description != Absent && !NonBlankString(body.description), DescriptionInvalid),
     Check(body.completed != Absent && !body.completed.Bool?, CompletedInvalid)]
  }

  /** How a body validator answers a list of errors: pass the request on
      when it is empty, otherwise a 400 listing them. */
  function Verdict(errors: seq<string>): (h: Handled)
    ensures h == Next <==> errors == []
    ensures h != Next ==>
      (h.Reply? && h.response.status == 400 &&
       h.response.body == ErrorBody(false, ValidationFailed, Some(errors), None))
  {
    if errors == [] then Next
    else Reply(Response(400, ErrorBody(false, ValidationFailed, Some(errors), None)))
  }

  /** The create check reports every failing field, not only the first, in
      the order title, description, completed. */
  lemma CreateReportsInOrder(body: RequestBody)
    ensures Collected(CreateChecks(body)) ==
      (if NonBlankString(body.title) then [] else [TitleRequired]) +
      (if NonBlankString(body.description) then [] else [DescriptionRequired]) +
      (if body.completed.Bool? then [] else [CompletedRequired])
  {
    var c := CreateChecks(body);
    assert c == [c[0]] + [c[1]] + [c[2]];
    CollectedAppend([c[0]] + [c[1]], [c[2]]);
    CollectedAppend([c[0]], [c[1]]);
    CollectedOne(c[0]);
    CollectedOne(c[1]);
    CollectedOne(c[2]);
  }

  /** The update check reports each present field that fails, in the
      order title, description, completed; absent fields report nothing. */
  lemma UpdateReportsInOrder(body: RequestBody)
    ensures Collected(UpdateChecks(body)) ==
      (if body.title == Absent || NonBlankString(body.title) then [] else [TitleInvalid]) +
      (if body.description == Absent || NonBlankString(body.description) then [] else [DescriptionInvalid]) +
      (if body.completed == Absent || body.completed.Bool? then [] else [CompletedInvalid])
  {
    var c := UpdateChecks(body);
    assert c == [c[0]] + [c[1]] + [c[2]];
    CollectedAppend([c[0]] + [c[1]], [c[2]]);
    CollectedAppend([c[0]], [c[1]]);
    CollectedOne(c[0]);
    CollectedOne(c[1]);
    CollectedOne(c[2]);
  }

  /** validateCreateTask: runs all three checks, collecting a message for
      each failing one, and passes the request on exactly when none failed. */
  method ValidateCreateTask(body: RequestBody) returns (h: Handled)
    ensures h == Verdict(Collected(CreateChecks(body)))
    ensures h == Next <==> ValidCreate(body)
  {
    TruthyGuards(body.title);
    TruthyGuards(body.description);
    var errors: seq<string> := [];
    if !Truthy(body.title) || !body.title.Str? || |Trim(body.title.s)| == 0 {
      errors := errors + [TitleRequired];
    }
    ghost var e1 := errors;
    assert e1 == if NonBlankString(body.title) then [] else [TitleRequired];
    if !Truthy(body.description) || !body.description.Str? || |Trim(body.description.s)| == 0 {
      errors := errors + [DescriptionRequired];
    }
    ghost var e2 := errors;
    assert e2 == e1 + if NonBlankString(body.description) then [] else [DescriptionRequired];
    if body.completed == Absent || !body.completed.Bool? {
      errors := errors + [CompletedRequired];
    }
    assert errors == e2 + if body.completed.Bool? then [] else [CompletedRequired];
    CreateReportsInOrder(body);
    assert errors == Collected(CreateChecks(body));
    assert errors == [] <==> ValidCreate(body);
    if |errors| > 0 {
      return Reply(Response(400, ErrorBody(false, ValidationFailed, Some(errors), None)));
    }
    return Next;
  }

  /** validateUpdateTask: an absent field is never checked; a present one
      must meet the create rule. An empty body always passes. */
  method ValidateUpdateTask(body: RequestBody) returns (h: Handled)
    ensures h == Verdict(Collected(UpdateChecks(body)))
    ensures h == Next <==> ValidUpdate(body)
    ensures body == RequestBody(Absent, Absent, Absent) ==> h == Next
  {
    var errors: seq<string> := [];
    if body.title != Absent {
      if !body.title.Str? || |Trim(body.title.s)| == 0 {
        errors := errors + [TitleInvalid];
      }
    }
    if body.description != Absent {
      if !body.description.Str? || |Trim(body.description.s)| == 0 {
        errors := errors + [DescriptionInvalid];
      }
    }
    if body.completed != Absent && !body.completed.Bool? {
      errors := errors + [CompletedInvalid];
    }
    UpdateReportsInOrder(body);
    assert errors == Collected(UpdateChecks(body));
    if |errors| > 0 {
      return Reply(Response(400, ErrorBody(false, ValidationFailed, Some(errors), None)));
    }
    return Next;
  }

  /** Every body create accepts, update accepts too. */
  lemma CreateStricterThanUpdate(body: RequestBody)
    requires ValidCreate(body)
    ensures ValidUpdate(body)
  {
  }

  // ---------------------------------------------------------------------
  // The :id path parameter

  /** req.params.id: the raw path text, or the integer validateTaskId put
      in its place. */
  datatype Param = Raw(text: string) | Parsed(value: int)

  /** The part of an Express request that validateTaskId rewrites. */
  class Request {
    var id: Param

    constructor (rawId: string)
      ensures id == Raw(rawId)
    {
      id := Raw(rawId);
    }
  }

  /** The path ids validateTaskId lets through: parseInt gives a number
      that is not NaN and is above 0. */
  predicate AcceptedId(text: string) {
    ParseInt(text).Int? && ParseInt(text).value > 0
  }

  /** validateTaskId: answers 400 for a NaN or non-positive parse; otherwise
      replaces the raw id with the parsed integer and passes the request on,
      so every id that reaches the controller is at least 1. */
  method ValidateTaskId(req: Request) returns (h: Handled)
    requires req.id.Raw?
    modifies req
    ensures AcceptedId(old(req.id).text) ==>
      h == Next && req.id == Parsed(ParseInt(old(req.id).text).value)
    ensures !AcceptedId(old(req.id).text) ==>
      h == Reply(Response(400, ErrorBody(false, InvalidId, None, None))) && req.id == old(req.id)
    ensures h == Next ==> req.id.Parsed? && req.id.value >= 1
  {
    var taskId := ParseInt(req.id.text);
    if taskId.NaN? || taskId.value <= 0 {
      return Reply(Response(400, ErrorBody(false, InvalidId, None, None)));
    }
    req.id := Parsed(taskId.value);
    return Next;
  }

  /** A positive decimal numeral, possibly after whitespace and '+', and
      possibly followed by text that does not continue it, is accepted as
      its own value ("42", " 7", "+3", "12abc", "5.9"). */
  lemma PositiveNumeralAccepted(ws: string, sign: string, n: nat, rest: string)
    requires AllSpace(ws)
    requires sign == "" || sign == "+"
    requires n >= 1
    requires rest == [] || !IsDecimalDigit(rest[0])
    ensures AcceptedId(ws + sign + DecimalString(n) + rest)
    ensures ParseInt(ws + sign + DecimalString(n) + rest) == Int(n)
  {
    ParseIntDecimal(ws, sign, n, rest);
  }

  /** A run of decimal digits with a positive value, leading zeros
      included, after optional whitespace and '+', is accepted as that
      value ("007" is task 7, " +0012x" is task 12). */
  lemma {:induction false} PositiveDigitsAccepted(ws: string, sign: string, d: string, rest: string)
    requires AllSpace(ws)
    requires sign == "" || sign == "+"
    requires d != []
    requires forall i :: 0 <= i < |d| ==> IsDecimalDigit(d[i])
    requires DigitsValue(d, 10) >= 1
    requires rest == [] || !IsDecimalDigit(rest[0])
    ensures AcceptedId(ws + sign + d + rest)
    ensures ParseInt(ws + sign + d + rest) == Int(DigitsValue(d, 10))
  {
    ParseIntDigits(ws, sign, d, rest);
  }

  /** "007" names task 7. */
  lemma LeadingZerosAccepted()
    ensures ParseInt("007") == Int(7)
  {
    assert "007"[..2] == "00" && "00"[..1] == "0" && "0"[..0] == [];
    assert DigitsValue("007", 10) == 7;
    assert "" + "" + "007" + "" == "007";
    ParseIntDigits("", "", "007", "");
  }

  /** The shortest numeral of zero, or of a negative number, is refused
      ("0", "-1", " -12x"). */
  lemma NonPositiveNumeralRefused(ws: string, sign: string, n: nat, rest: string)
    requires AllSpace(ws)
    requires sign == "" || sign == "+" || sign == "-"
    requires sign != "-" ==> n == 0
    requires rest == [] || !IsDecimalDigit(rest[0])
    requires n == 0 ==> rest == [] || (rest[0] != 'x' && rest[0] != 'X')
    ensures !AcceptedId(ws + sign + DecimalString(n) + rest)
  {
    ParseIntDecimal(ws, sign, n, rest);
  }

  /** Any run of decimal digits whose value is zero, or that follows '-',
      is refused, leading zeros included ("00", "+000", "-007"). */
  lemma {:induction false} NonPositiveDigitsRefused(ws: string, sign: string, d: string, rest: string)
    requires AllSpace(ws)
    requires sign == "" || sign == "+" || sign == "-"
    requires d != []
    requires forall i :: 0 <= i < |d| ==> IsDecimalDigit(d[i])
    requires sign == "-" || DigitsValue(d, 10) == 0
    requires rest == [] || !IsDecimalDigit(rest[0])
    requires d == "0" ==> rest == [] || (rest[0] != 'x' && rest[0] != 'X')
    ensures !AcceptedId(ws + sign + d + rest)
  {
    ParseIntDigits(ws, sign, d, rest);
  }

  /** Text with no digit after the whitespace and sign is refused ("abc"). */
  lemma NonNumericRefused(ws: string, sign: string, rest: string)
    requires AllSpace(ws)
    requires sign == "" || sign == "+" || sign == "-"
    requires rest == [] || (!IsDecimalDigit(rest[0]) &&
                            (sign == "" ==> !IsSpace(rest[0]) && rest[0] != '+' && rest[0] != '-'))
    ensures !AcceptedId(ws + sign + rest)
  {
    ParseIntNaN(ws, sign, rest);
  }

  /** GET /tasks/abc is refused: "abc" has no decimal digit. */
  lemma LetterIdRefused()
    ensures !AcceptedId("abc")
  {
    assert "" + "" + "abc" == "abc";
    NonNumericRefused("", "", "abc");
  }

  /** A sign followed by a space is not a number: "- 1" is refused. */
  lemma SpaceAfterSignRefused()
    ensures !AcceptedId("- 1")
  {
    assert "" + "-" + " 1" == "- 1";
    NonNumericRefused("", "-", " 1");
  }
}

=== FILE: wrappers.dfy ===
/** Option and Result values shared by the other modules. */
module Wrappers {

  datatype Option<+T> = None | Some(value: T)

  /** The outcome of a step that either produces a value or throws an error. */
  datatype Result<+T, +E> = Ok(value: T) | Err(error: E)
}
